=== FILE: README.md ===
# Interview Question Organizer — a Dafny model of its data core

The Interview Question Organizer is a single-page Streamlit application
(`app.py`). It keeps interview questions in one SQLite table, `questions`.
Through a form it can add a question, list the questions newest first
under sidebar filters, edit or delete one, and draw one at random as a
quiz. The page assembles its SQL by hand. This project models the table
and every statement the page runs against it, as pure Dafny values and
functions:

- **`Records`** models a row of `questions` and the form values. It also
  models the three normalisations the page applies: `s or None` on the
  way in, `x or ""` when the edit form is pre-filled, and Python's
  `str.strip()` on the question.
- **`Text`** holds the string helpers: `strip`, `join`, list repetition,
  and counting and prefix tests.
- **`Filters`** models the sidebar's state: the three multiselects and the
  search box. It also states, independently of any SQL, which rows a
  filter means to show.
- **`WhereClause`** models the WHERE builder. The builder is an abstract
  list of groups (`topic IN (...)`, `role IN (...)`, `company IN (...)`,
  the three-column LIKE search), which `Render`/`RenderClause` turn into
  the exact text the script produces. `ParseClause` reads exactly that
  language back. Both round trips are proved.
- **`SqlEval`** models how SQLite evaluates such a clause. It uses
  three-valued logic with NULL as `Unknown`, binds positional parameters,
  keeps only rows whose condition is true, and implements `ORDER BY id DESC`.
- **`QuestionStore`** models the table itself. That covers its rows in
  rowid order and the AUTOINCREMENT counter (`sqlite_sequence`). It also
  models the INSERT, UPDATE and DELETE statements, the listing, the
  DISTINCT queries that fill the sidebar, and the quiz pick.
- **`StoreProperties`** holds lemmas that relate several operations:
  what the listing holds, lookups after each write, and the invariants
  the writes keep.

The central result is the contract of `QuestionStore.Listing`. For every filter,
the statement the page builds does three things:

- within SQLite's default limits, it executes without an unsupported-clause or binding error;
- it returns exactly the rows of the table that `Filters.Matches` describes;
- on a valid table, it returns them in strictly decreasing id order.

`Filters.Matches` requires that for every non-empty multiselect the
column is non-NULL and among the chosen values, and that any non-empty
search text occurs in the question, the answer or the notes.

## Model

| member | source | states |
|---|---|---|
| Text.Strip | app.py:52 | `str.strip()` returns the slice of the input after its leading whitespace, followed in the input only by whitespace, starting and ending with non-whitespace; it is empty exactly when the input is all whitespace |
| Text.StripIdempotent | app.py:57 | stripping an already stripped question changes nothing |
| Records.OrNone | app.py:57 | `s or None` gives NULL exactly for the empty string and otherwise keeps the text verbatim |
| Records.Inserted | app.py:55-57 | computes the row the INSERT stores: `or None` on company, role, topic, answer and notes, the chosen difficulty, the stripped question and the date text (no contract of its own; `Records.InsertedIsNormalised` states what it guarantees) |
| Records.Edited | app.py:122-126 | computes the row the UPDATE leaves: the same as an insert except that an empty date also becomes NULL (no contract of its own; `Records.EditedIsNormalised` states what it guarantees) |
| Records.EditDraft | app.py:106-115 | computes the edit form's pre-filled values, `x or ""` on every text field (no contract of its own; `Records.EditRoundTrip` states its inverse) |
| Records.EditedIsNormalised | app.py:126 | a row written by UPDATE has no empty-string optional field and a question equal to its own strip |
| Records.InsertedIsNormalised | app.py:57 | a row written by INSERT (with the non-empty date text the date picker gives) is normalised in the same sense |
| Records.EditRoundTrip | app.py:106-126 | opening the edit form on a normalised row and submitting it unchanged writes back exactly that row |
| WhereClause.ActiveGroups | app.py:77-88 | the groups come in the order topic, role, company, search, each at most once and well formed; a group is present exactly when its multiselect is non-empty (with that many values) or the search text is non-empty |
| WhereClause.BuildWhere | app.py:75-90 | the clause is empty exactly when no filter is active, and its text contains exactly one `?` per parameter |
| WhereClause.BuildParams | app.py:76-88 | computes the parameter list: the chosen topics, roles and companies in that order, then `%text%` three times when there is search text (no contract of its own; `WhereClause.ParamsMatchArity` and `SqlEval.BindLayout` state what it guarantees) |
| WhereClause.ParamsMatchArity | app.py:79-88 | the parameter list is as long as the groups' placeholder counts add up to |
| WhereClause.RenderCount | app.py:78-87 | an IN group's text holds one `?` per chosen value, and the search group's text holds three |
| WhereClause.ClausePlaceholders | app.py:90 | `"WHERE " + " AND ".join(...)` holds exactly as many `?` as its groups bind |
| WhereClause.ClauseRoundTrip | app.py:90 | every well-formed group list renders to a clause that reads back as that same list |
| WhereClause.ClauseExact | app.py:90 | any text the clause reader accepts is the rendering of what it read, so rendering is a bijection onto that language |
| WhereClause.BuildWhereParses | app.py:75-90 | the clause built for a filter reads back as the filter's active groups |
| SqlEval.And | app.py:90 | SQL's three-valued AND is true only when both sides are true and false as soon as one side is false |
| SqlEval.Or | app.py:87 | SQL's three-valued OR is true as soon as one side is true and false only when both sides are false |
| SqlEval.InValues | app.py:78-84 | `col IN (...)` is Unknown on a NULL column and otherwise true exactly when the value is among the bound ones |
| SqlEval.Like | app.py:87 | `col LIKE '%text%'` is Unknown on a NULL column and otherwise true exactly when the text occurs in the value |
| SqlEval.PatternInfix | app.py:88 | the pattern `f"%{search}%"` matches a value exactly when the search text occurs in it |
| SqlEval.Bind | app.py:29 | positional binding gives each group as many parameters as it has placeholders, in order, and the runs put back together are the parameter list |
| SqlEval.BindLayout | app.py:77-88 | each IN group is bound to exactly the values chosen for its column, and the search group to `%text%` for each of its three placeholders |
| SqlEval.Where | app.py:29 | a row is kept exactly when the condition evaluates to true, so Unknown rows are dropped; the kept rows are a subsequence of the scan, so scan order and repeats are kept, and an ascending scan stays ascending |
| SqlEval.WhereAll | app.py:28-29 | with no WHERE clause every row is kept |
| SqlEval.Reverse | app.py:29 | reading the scan backwards keeps the same rows, in reverse positions |
| SqlEval.ReverseDescends | app.py:29 | backwards over an ascending scan is `ORDER BY id DESC` |
| SqlEval.WhereAgrees | app.py:75-90 | the built clause with the built parameters is true of a row exactly when the row matches the filter: AND across groups, NULL never matching, substring search over question, answer and notes |
| SqlEval.WhereMatches | app.py:75-92 | over any scan, the built clause and parameters keep exactly the rows that match the filter |
| SqlEval.Fetch | app.py:28-29 | `fetch_df` over the page's clause language: a clause outside that language fails as `Unsupported`; a readable one fails exactly when the parameter count differs from its placeholder count and succeeds otherwise, in which case the result holds exactly the rows for which the bound clause is true, and an ascending scan comes out id-descending |
| QuestionStore.EmptyValid | app.py:13-25 | the table a new database file starts with has no rows and a zero counter, and is valid, so every table the page reaches from it by insert, update and delete is valid |
| QuestionStore.LargestId | app.py:15 | the largest id present in the rows, 0 for none |
| QuestionStore.Insert | app.py:51-58 | a question that is blank after stripping is rejected and nothing is written; otherwise one row is appended under an id larger than any id present or ever handed out; the table stays valid, and SQLITE_FULL arises exactly when the counter is at 2^63-1 |
| QuestionStore.Update | app.py:121-127 | every row with the id is replaced by the edited row, all other rows and the counter are untouched, an absent id changes nothing, and validity is kept |
| QuestionStore.Without | app.py:130 | the rows left are exactly those with another id, still ascending |
| QuestionStore.WithoutAbsent | app.py:130 | deleting an id that no row has leaves the rows as they were |
| QuestionStore.WithoutPresent | app.py:130 | deleting a present id from a scan with unique ids drops exactly one row |
| QuestionStore.Delete | app.py:129-131 | the row with the id is gone and every other row stays, the counter is kept, an absent id changes nothing, validity is kept, and a present id shrinks the table by exactly one |
| QuestionStore.Find | app.py:102 | finds the first row with the id, and finds nothing exactly when no row has it |
| QuestionStore.Lookup | app.py:102 | a row is found exactly when some row has the id, and the row found has that id |
| QuestionStore.Listing | app.py:75-92 | within SQLite's default limits the page's listing never errors; it holds exactly the table's rows that match the filter, and on a valid table is strictly id-descending |
| QuestionStore.DistinctValues | app.py:67-69 | the sidebar's choices have no repeats and are exactly the non-empty values some row shows in that column |
| QuestionStore.QuizPick | app.py:143-145 | the quiz draws nothing from an empty listing and otherwise a row of the listing |
| QuestionStore.QuizReachesEvery | app.py:145 | every row of the listing is a possible draw |
| StoreProperties.NoFilterListsAll | app.py:28-29 | with nothing chosen and nothing typed there is no clause and no parameter, and the listing is the whole table, newest first |
| StoreProperties.ReverseSnoc | app.py:29 | a row appended to the scan comes first when the scan is read backwards |
| StoreProperties.InsertThenList | app.py:51-58 | after an insert the unfiltered listing is the new row followed by the previous listing |
| StoreProperties.InsertThenLookup | app.py:55-57 | the inserted row is found under its new id |
| StoreProperties.BlankQuestionRejected | app.py:52-53 | a question that is blank after stripping is refused |
| StoreProperties.UpdateThenLookup | app.py:121-126 | after an update of a present id that id holds exactly the edited row |
| StoreProperties.DeleteThenLookup | app.py:129-130 | after a delete the id is not found |
| StoreProperties.DeletedIdNotReused | app.py:15 | after a delete, the next insert gets an id larger than the deleted one |
| StoreProperties.AppendKeeps | app.py:55-57 | appending a normalised row to normalised rows keeps them all normalised |
| StoreProperties.InsertKeepsNormalised | app.py:55-57 | a successful insert (with the non-empty date text the date picker gives) keeps every row normalised |
| StoreProperties.UpdateKeepsNormalised | app.py:122-126 | an update keeps every row normalised |
| StoreProperties.DeleteKeepsNormalised | app.py:130 | a delete keeps every row normalised |
| StoreProperties.UnchangedEditIsNoOp | app.py:106-126 | pressing Update on an unchanged pre-filled form leaves a normalised table exactly as it was |
| StoreProperties.InsertKeepsQuestions | app.py:52-57 | an insert never stores an empty question |
| StoreProperties.DeleteKeepsQuestions | app.py:130 | a delete keeps every stored question non-empty |
| StoreProperties.UpdateMayClearQuestion | app.py:121-126 | an update does not check the question: a whitespace-only question is stored as the empty string |
| StoreProperties.ListingIsScan | app.py:29 | the page's listing is the scan filtered by the built clause and parameters, read backwards |
| StoreProperties.FirstInsert | app.py:15 | the first question added to a new database is stored under id 1 |
| StoreProperties.SecondInsert | app.py:15 | the second question is stored under id 2, after the first |
| StoreProperties.FilterByTopic | app.py:77-79 | with an "OS" row under id 1 and a "DBMS" row under id 2, choosing topic "OS" lists the first row alone |
| StoreProperties.TwoInsertsThenFilter | app.py:51-92 | adding "What is a process?" (topic OS) and then "Explain normalization" (topic DBMS) to a new database and choosing topic "OS" lists exactly the first question, under id 1 |

## Left out

- The Streamlit page itself is not modelled: layout, widgets, messages, reruns, `clear_on_submit` and the `st.cache_resource` connection. The operations take the widgets' values as parameters.
- pandas is not modelled, including `read_sql_query`'s DataFrame, its NaN for NULL, `df.sample` and CSV export. The listing is a sequence of rows, and NULL stays `None`.
- QuizPick: the random draw is a parameter, so the model shows which rows can be drawn but not that the draw is uniform.
- SqlEval.Like: models only patterns of the form `%text%`, as plain substring containment. SQLite's `LIKE` also folds ASCII case and treats `%` and `_` inside the typed text as wildcards. Both are left out, so search text that mixes case or contains those characters can match more rows in SQLite than in the model.
- Dates are opaque text. `str(date_added)` is whatever the date picker gives, and the edit form's free-text date is stored as typed, except that an empty date is stored as NULL.
- The difficulty select box at line 110 raises ValueError when a stored difficulty is not one of Easy, Medium or Hard. The model's `Difficulty` type admits only those three values, so this case does not arise.
- QuestionStore.DistinctValues: SQLite does not promise any order for `SELECT DISTINCT`. The model returns first-occurrence order, and its contract says nothing about order.
- The column affinities and `NOT NULL` constraint of `CREATE TABLE` (lines 13-25) are not modelled apart from what the datatypes enforce: the question is never NULL and the id is a natural number. `QuestionStore.Valid` additionally requires every id to be at least 1.
- QuestionStore.Listing: does not model two SQLite limits. A bound LIKE pattern longer than SQLITE_LIMIT_LIKE_PATTERN_LENGTH (50 000 bytes by default) makes `like()` raise "LIKE or GLOB pattern too complex"; the pattern is `%text%` (line 88), so a search text of 49 999 bytes or more fails on a non-empty table. A statement with more placeholders than SQLITE_LIMIT_VARIABLE_NUMBER (lines 78-88) fails when it is prepared. The contract's "never fails" holds only within those limits.
- SqlEval.Fetch: only the clause language the page's builder emits is modelled. Any other text, valid SQL such as `WHERE id=1` included, is reported as `Unsupported` rather than run. Line 92 only ever passes the built clause, so the listing is unaffected.
- Concurrency, transactions and `commit` are not modelled; each statement is one atomic step.
- The UPDATE of lines 121-126 does not check for a blank question, unlike the add form. The model follows the code, as `StoreProperties.UpdateMayClearQuestion` shows. Likewise, an UPDATE or DELETE of an id that no row has is a silent no-op in the code, and the model follows that.

=== FILE: filters.dfy ===
/** What the sidebar's filter choices mean for one row, stated directly
    over the row: an AND across the active filters, an OR inside each
    multi-select, and a substring search over three text columns. */
module Filters {
  import opened Wrappers
  import opened Text
  import opened Records

  /** The sidebar state: the values chosen in the three multi-selects and
      the search box text. */
  datatype Filter = Filter(
    topics: seq<string>,
    roles: seq<string>,
    companies: seq<string>,
    search: string)

  /** Nothing chosen and nothing typed: the page's initial state. */
  const NoFilter := Filter([], [], [], "")

  function Chosen(f: Filter, c: Column): seq<string> {
    match c
    case Topic => f.topics
    case Role => f.roles
    case Company => f.companies
  }

  predicate IsEmpty(f: Filter) {
    f.topics == [] && f.roles == [] && f.companies == [] && f.search == ""
  }

  /** A multi-select passes a row when nothing is chosen in it, or when the
      row's column is not NULL and is one of the chosen values. */
  predicate InChosen(chosen: seq<string>, field: Option<string>) {
    chosen == [] || (field.Some? && field.value in chosen)
  }

  /** The search box passes a row when it is empty, or when its text occurs
      in the question, in the answer or in the notes (NULL columns never
      contain anything). */
  predicate SearchHit(search: string, r: Record) {
    || search == ""
    || Contains(r.question, search)
    || (r.answer.Some? && Contains(r.answer.value, search))
    || (r.notes.Some? && Contains(r.notes.value, search))
  }

  predicate Matches(f: Filter, r: Record) {
    && InChosen(f.topics, r.topic)
    && InChosen(f.roles, r.role)
    && InChosen(f.companies, r.company)
    && SearchHit(f.search, r)
  }
}

=== FILE: question_store.dfy ===
/** The `questions` table (lines 13-25 of the script) as a value, and the
    statements the page runs against it: INSERT from the add form, the
    filtered listing, the DISTINCT queries behind the sidebar, UPDATE and
    DELETE from the edit form, and the quiz pick. */
module QuestionStore {
  import opened Wrappers
  import opened Text
  import opened Records
  import opened Filters
  import opened WhereClause
  import opened SqlEval

  /** SQLite's largest rowid, 2^63 - 1. */
  const MaxRowId: nat := 0x7FFF_FFFF_FFFF_FFFF

  /** The table: its rows in rowid order (the order of SQLite's table
      B-tree) and the largest id AUTOINCREMENT has ever handed out (the
      table's `sqlite_sequence` entry). */
  datatype Table = Table(rows: seq<Record>, lastId: nat)

  /** The table `CREATE TABLE IF NOT EXISTS` makes in a new database file. */
  const Empty: Table := Table([], 0)

  /** A new database file starts out valid. */
  lemma EmptyValid()
    ensures Valid(Empty) && Empty.rows == [] && Empty.lastId == 0
  {
  }

  /** What SQLite keeps true of a rowid table: ids are unique and the scan
      meets them in increasing order, every id is positive and no larger
      than the recorded largest id, which itself fits a rowid. */
  predicate Valid(t: Table) {
    && IdsAscending(t.rows)
    && (forall i :: 0 <= i < |t.rows| ==> 1 <= t.rows[i].id <= t.lastId)
    && t.lastId <= MaxRowId
  }

  /** The largest id among `rows`, 0 for no rows. */
  function LargestId(rows: seq<Record>): (m: nat)
    ensures forall i :: 0 <= i < |rows| ==> rows[i].id <= m
    ensures rows == [] ==> m == 0
    ensures rows != [] ==> exists i :: 0 <= i < |rows| && rows[i].id == m
    decreases |rows|
  {
    if rows == [] then 0
    else
      var m := LargestId(rows[1..]);
      assert forall i :: 1 <= i < |rows| ==> rows[i] == rows[1..][i - 1];
      if rows[0].id >= m then rows[0].id else m
  }

  /** How an insert can fail. `QuestionRequired` is the form's own check
      (line 52); `Full` is SQLite's SQLITE_FULL when AUTOINCREMENT has
      no larger rowid left to give. */
  datatype StoreError = QuestionRequired | Full

  /** The add form's submit (lines 51-58). A question that is empty after
      stripping is rejected and nothing is written. Otherwise exactly one
      row is appended, under an id larger than any id the table holds or
      has ever handed out, and that id becomes the recorded largest id. */
  function Insert(t: Table, d: Draft): (res: Result<Table, StoreError>)
    ensures AllSpace(d.question) <==> res == Failure(QuestionRequired)
    ensures res.Failure? ==> res.error == QuestionRequired || res.error == Full
    ensures res.Success? ==>
      var t' := res.value;
      && |t'.rows| == |t.rows| + 1
      && t'.rows[..|t.rows|] == t.rows
      && t'.rows[|t.rows|] == Inserted(t'.lastId, d)
      && t'.lastId > t.lastId
      && (forall i :: 0 <= i < |t.rows| ==> t.rows[i].id < t'.lastId)
    ensures Valid(t) ==> (res == Failure(Full) <==> !AllSpace(d.question) && t.lastId == MaxRowId)
    ensures Valid(t) && res.Success? ==> Valid(res.value) && res.value.lastId == t.lastId + 1
  {
    if Strip(d.question) == "" then Failure(QuestionRequired)
    else
      var top := if t.lastId >= LargestId(t.rows) then t.lastId else LargestId(t.rows);
      if top >= MaxRowId then Failure(Full)
      else
        var id := top + 1;
        var rows := t.rows + [Inserted(id, d)];
        assert rows[..|t.rows|] == t.rows;
        Success(Table(rows, id))
  }

  /** The edit form's UPDATE (lines 121-126): the row whose id is `id`
      gets all eight editable columns from the form, normalised as an
      edit is; its id, every other row and the recorded largest id stay as
      they were. An id that is not in the table changes nothing. */
  function Update(t: Table, id: nat, d: Draft): (t': Table)
    ensures |t'.rows| == |t.rows| && t'.lastId == t.lastId
    ensures forall i :: 0 <= i < |t.rows| && t.rows[i].id == id ==> t'.rows[i] == Edited(id, d)
    ensures forall i :: 0 <= i < |t.rows| && t.rows[i].id != id ==> t'.rows[i] == t.rows[i]
    ensures (forall i :: 0 <= i < |t.rows| ==> t.rows[i].id != id) ==> t' == t
    ensures Valid(t) ==> Valid(t')
  {
    var e := Edited(id, d);
    assert e.id == id;
    var rows := seq(|t.rows|, i requires 0 <= i < |t.rows| =>
                  if t.rows[i].id == id then e else t.rows[i]);
    assert (forall i :: 0 <= i < |t.rows| ==> t.rows[i].id != id) ==> rows == t.rows;
    assert forall i :: 0 <= i < |rows| ==> rows[i].id == t.rows[i].id;
    SameIdsValid(t, Table(rows, t.lastId));
    Table(rows, t.lastId)
  }

  /** Validity depends on the ids alone. */
  lemma SameIdsValid(t: Table, t': Table)
    requires |t'.rows| == |t.rows| && t'.lastId == t.lastId
    requires forall i :: 0 <= i < |t.rows| ==> t'.rows[i].id == t.rows[i].id
    ensures Valid(t) ==> Valid(t')
  {
  }

  /** The rows whose id is not `id`, in their order. */
  function Without(rows: seq<Record>, id: nat): (rest: seq<Record>)
    ensures forall x :: x in rest <==> x in rows && x.id != id
    ensures IdsAscending(rows) ==> IdsAscending(rest)
    decreases |rows|
  {
    if rows == [] then []
    else
      var rest := Without(rows[1..], id);
      assert forall x :: x in rows <==> x == rows[0] || x in rows[1..];
      if rows[0].id != id then
        assert IdsAscending(rows) ==> IdsAscending([rows[0]] + rest) by {
          if IdsAscending(rows) { AscendingCons(rows, rest); }
        }
        [rows[0]] + rest
      else rest
  }

  lemma {:induction false} WithoutAbsent(rows: seq<Record>, id: nat)
    requires forall i :: 0 <= i < |rows| ==> rows[i].id != id
    ensures Without(rows, id) == rows
    decreases |rows|
  {
    if rows != [] {
      assert forall i :: 1 <= i < |rows| ==> rows[i] == rows[1..][i - 1];
      WithoutAbsent(rows[1..], id);
    }
  }

  /** In a scan with unique ids, removing a present id drops exactly one row. */
  lemma {:induction false} WithoutPresent(rows: seq<Record>, id: nat, k: nat)
    requires IdsAscending(rows) && k < |rows| && rows[k].id == id
    ensures |Without(rows, id)| == |rows| - 1
    decreases |rows|
  {
    assert forall i :: 1 <= i < |rows| ==> rows[i] == rows[1..][i - 1];
    if k == 0 {
      WithoutAbsent(rows[1..], id);
    } else {
      WithoutPresent(rows[1..], id, k - 1);
    }
  }

  /** The edit form's DELETE (lines 129-131): the row with id `id` is
      gone, every other row stays in place, and the recorded largest id is
      kept, so the id is never handed out again. */
  function Delete(t: Table, id: nat): (t': Table)
    ensures forall x :: x in t'.rows <==> x in t.rows && x.id != id
    ensures t'.lastId == t.lastId
    ensures (forall i :: 0 <= i < |t.rows| ==> t.rows[i].id != id) ==> t' == t
    ensures Valid(t) ==> Valid(t')
    ensures Valid(t) && (exists i :: 0 <= i < |t.rows| && t.rows[i].id == id)
            ==> |t'.rows| == |t.rows| - 1
  {
    var rest := Without(t.rows, id);
    assert forall i :: 0 <= i < |rest| ==> rest[i] in t.rows;
    if forall i :: 0 <= i < |t.rows| ==> t.rows[i].id != id then
      WithoutAbsent(t.rows, id);
      Table(rest, t.lastId)
    else
      assert Valid(t) ==> |rest| == |t.rows| - 1 by {
        if Valid(t) {
          var k :| 0 <= k < |t.rows| && t.rows[k].id == id;
          WithoutPresent(t.rows, id, k);
        }
      }
      Table(rest, t.lastId)
  }

  /** The row with id `id`, if there is one (the page's
      `df[df["id"] == x]`). */
  function Lookup(t: Table, id: nat): (r: Option<Record>)
    ensures r.Some? ==> r.value in t.rows && r.value.id == id
    ensures r.None? <==> forall i :: 0 <= i < |t.rows| ==> t.rows[i].id != id
  {
    Find(t.rows, id)
  }

  function Find(rows: seq<Record>, id: nat): (r: Option<Record>)
    ensures r.Some? ==> r.value in rows && r.value.id == id
    ensures r.None? <==> forall i :: 0 <= i < |rows| ==> rows[i].id != id
    ensures r.Some? ==> (exists i :: 0 <= i < |rows| && rows[i] == r.value
                           && (forall j :: 0 <= j < i ==> rows[j].id != id))
    decreases |rows|
  {
    if rows == [] then None
    else if rows[0].id == id then Some(rows[0])
    else
      var r := Find(rows[1..], id);
      assert forall i :: 1 <= i < |rows| ==> rows[i] == rows[1..][i - 1];
      r
  }

  /** The page's listing (line 92): the sidebar's clause and parameters
      run through `fetch_df`. It never fails (SQLite's limits on LIKE
      pattern length and on the number of placeholders are not modelled),
      holds exactly the rows that match every active filter, and on a
      valid table is ordered by id from highest to lowest. */
  function Listing(t: Table, f: Filter): (res: Result<seq<Record>, SqlError>)
    ensures res.Success?
    ensures forall x :: x in res.value <==> x in t.rows && Matches(f, x)
    ensures Valid(t) ==> IdsDescending(res.value)
  {
    var q := BuildWhere(f);
    var gs := ActiveGroups(f);
    BuildWhereParses(f);
    WhereMatches(t.rows, f);
    ReverseDescends(Where(t.rows, gs, Bind(gs, q.params)));
    Fetch(t.rows, q)
  }

  /** The text a filter column shows for a row, `COALESCE(col, '')`. */
  function Shown(r: Record, c: Column): string {
    Coalesce(Field(r, c))
  }

  /** The sidebar's choices for column `c` (lines 67-69):
      `SELECT DISTINCT COALESCE(c, '')`, keeping only non-empty values. The
      list has no repeats and holds exactly the non-empty values some row
      shows; they come in the order of their first row. */
  method DistinctValues(t: Table, c: Column) returns (vs: seq<string>)
    ensures forall i, j :: 0 <= i < j < |vs| ==> vs[i] != vs[j]
    ensures forall v :: v in vs <==> v != "" && exists k :: 0 <= k < |t.rows| && Shown(t.rows[k], c) == v
  {
    vs := [];
    var i := 0;
    while i < |t.rows|
      invariant 0 <= i <= |t.rows|
      invariant forall a, b :: 0 <= a < b < |vs| ==> vs[a] != vs[b]
      invariant forall v :: v in vs <==> v != "" && exists k :: 0 <= k < i && Shown(t.rows[k], c) == v
    {
      var v := Shown(t.rows[i], c);
      if v != "" && v !in vs {
        vs := vs + [v];
      }
      i := i + 1;
    }
  }

  /** The quiz pick (lines 143-145) with the random draw passed in as
      `choice`: nothing when the listing is empty, otherwise one of its
      rows. */
  function QuizPick(listing: seq<Record>, choice: nat): (r: Option<Record>)
    ensures r.Some? <==> listing != []
    ensures r.Some? ==> r.value in listing
  {
    if listing == [] then None else Some(listing[choice % |listing|])
  }

  /** Every row of the listing is a possible quiz question. */
  lemma QuizReachesEvery(listing: seq<Record>, k: nat)
    requires k < |listing|
    ensures QuizPick(listing, k) == Some(listing[k])
  {
  }
}

=== FILE: records.dfy ===
/** One row of the `questions` table and the raw form input it is made from. */
module Records {
  import opened Wrappers
  import opened Text

  /** The three levels the form's select box offers. */
  datatype Difficulty = Easy | Medium | Hard

  /** A row of `questions`. `None` is SQL NULL; `question` is NOT NULL. */
  datatype Record = Record(
    id: nat,
    company: Option<string>,
    role: Option<string>,
    topic: Option<string>,
    difficulty: Difficulty,
    question: string,
    answer: Option<string>,
    dateAdded: Option<string>,
    notes: Option<string>)

  /** Ids strictly increase along `rs`: the order of SQLite's rowid scan. */
  predicate IdsAscending(rs: seq<Record>) {
    forall i, j :: 0 <= i < j < |rs| ==> rs[i].id < rs[j].id
  }

  /** Ids strictly decrease along `rs`: the order `ORDER BY id DESC` asks for. */
  predicate IdsDescending(rs: seq<Record>) {
    forall i, j :: 0 <= i < j < |rs| ==> rs[i].id > rs[j].id
  }

  /** The three columns the sidebar filters on. */
  datatype Column = Topic | Role | Company

  function ColumnName(c: Column): string {
    match c
    case Topic => "topic"
    case Role => "role"
    case Company => "company"
  }

  function Field(r: Record, c: Column): Option<string> {
    match c
    case Topic => r.topic
    case Role => r.role
    case Company => r.company
  }

  /** `COALESCE(col, '')`: a NULL column reads as the empty string. */
  function Coalesce(o: Option<string>): string
  {
    match o
    case None => ""
    case Some(v) => v
  }

  /** Python's `s or None` on a form string: the empty string becomes NULL,
      any other string (whitespace included) is kept verbatim. */
  function OrNone(s: string): (o: Option<string>)
    ensures o.None? <==> s == ""
    ensures o.Some? ==> o.value == s
  {
    if s == "" then None else Some(s)
  }

  /** The values typed into the add or edit form, as the widgets return
      them: text fields are never NULL, only possibly empty. */
  datatype Draft = Draft(
    company: string,
    role: string,
    topic: string,
    difficulty: Difficulty,
    question: string,
    answer: string,
    date: string,
    notes: string)

  /** The row the add form stores under id `id` (the INSERT's eight
      bound values): empty optional text becomes NULL, the question is
      stripped, and the date text is stored as given. */
  function Inserted(id: nat, d: Draft): Record
  {
    Record(id, OrNone(d.company), OrNone(d.role), OrNone(d.topic), d.difficulty,
           Strip(d.question), OrNone(d.answer), Some(d.date), OrNone(d.notes))
  }

  /** The row the edit form's UPDATE leaves under id `id`: the same
      normalisation as for an insert, except that an empty date also
      becomes NULL. */
  function Edited(id: nat, d: Draft): Record
  {
    Record(id, OrNone(d.company), OrNone(d.role), OrNone(d.topic), d.difficulty,
           Strip(d.question), OrNone(d.answer), OrNone(d.date), OrNone(d.notes))
  }

  /** The edit form pre-filled from a row: every NULL shows as `""`. */
  function EditDraft(r: Record): Draft
  {
    Draft(Coalesce(r.company), Coalesce(r.role), Coalesce(r.topic), r.difficulty,
          r.question, Coalesce(r.answer), Coalesce(r.dateAdded), Coalesce(r.notes))
  }

  /** No optional column holds the empty string (the form turns `""` into
      NULL) and the question carries no surrounding whitespace. */
  predicate Normalised(r: Record) {
    && r.company != Some("") && r.role != Some("") && r.topic != Some("")
    && r.answer != Some("") && r.dateAdded != Some("") && r.notes != Some("")
    && Strip(r.question) == r.question
  }

  /** Every row the edit form writes is normalised. */
  lemma EditedIsNormalised(id: nat, d: Draft)
    ensures Normalised(Edited(id, d))
  {
    var r := Edited(id, d);
    StripIdempotent(d.question);
    assert Strip(r.question) == r.question;
  }

  /** Every row the add form writes is normalised, given the non-empty
      date text the date picker produces. */
  lemma InsertedIsNormalised(id: nat, d: Draft)
    requires d.date != ""
    ensures Normalised(Inserted(id, d))
  {
    var r := Inserted(id, d);
    StripIdempotent(d.question);
    assert Strip(r.question) == r.question;
  }

  /** Pre-filling the edit form from a normalised row and submitting it
      unchanged writes back exactly that row: `x or ""` and `x or None`
      undo each other on such a row. */
  lemma EditRoundTrip(r: Record)
    requires Normalised(r)
    ensures Edited(r.id, EditDraft(r)) == r
  {
  }
}

=== FILE: sql_eval.dfy ===
/** What SQLite does with `SELECT * FROM questions <clause> ORDER BY id DESC`
    (line 29) for the clauses of the WHERE-clause module: placeholders are
    bound positionally, comparisons with NULL are unknown, and only rows
    whose condition is true are returned, highest id first. */
module SqlEval {
  import opened Wrappers
  import opened Text
  import opened Records
  import opened Filters
  import opened WhereClause

  /** SQL's three truth values; `Unknown` is the NULL of a comparison. */
  datatype Truth = True | False | Unknown

  /** Three-valued AND: true only when both sides are, false as soon as one is. */
  function And(a: Truth, b: Truth): (t: Truth)
    ensures t == True <==> a == True && b == True
    ensures t == False <==> a == False || b == False
  {
    if a == False || b == False then False
    else if a == True && b == True then True
    else Unknown
  }

  /** Three-valued OR: true as soon as one side is, false only when both are. */
  function Or(a: Truth, b: Truth): (t: Truth)
    ensures t == True <==> a == True || b == True
    ensures t == False <==> a == False && b == False
  {
    if a == True || b == True then True
    else if a == False && b == False then False
    else Unknown
  }

  /** `col IN (v1, ..., vn)` with non-NULL values: unknown on a NULL column,
      otherwise whether the column equals one of the values. */
  function InValues(field: Option<string>, values: seq<string>): (t: Truth)
    ensures t == True <==> field.Some? && field.value in values
    ensures t == Unknown <==> field.None?
  {
    match field
    case None => Unknown
    case Some(v) => if v in values then True else False
  }

  /** `v LIKE p` for a pattern of the form `%text%`: whether `text` occurs
      in `v`. Other patterns match nothing. */
  predicate LikeInfix(v: string, p: string) {
    |p| >= 2 && p[0] == '%' && p[|p| - 1] == '%' && Contains(v, p[1..|p| - 1])
  }

  /** `col LIKE p`: unknown on a NULL column. */
  function Like(field: Option<string>, p: string): (t: Truth)
    ensures t == True <==> field.Some? && LikeInfix(field.value, p)
    ensures t == Unknown <==> field.None?
  {
    match field
    case None => Unknown
    case Some(v) => if LikeInfix(v, p) then True else False
  }

  /** The value of one group on row `r`, given the parameters bound to its
      placeholders. */
  function EvalGroup(g: Group, args: seq<string>, r: Record): Truth
    requires |args| == Arity(g)
  {
    match g
    case InList(c, _) => InValues(Field(r, c), args)
    case TextSearch =>
      Or(Or(Like(Some(r.question), args[0]), Like(r.answer, args[1])), Like(r.notes, args[2]))
  }

  function Flatten(chunks: seq<seq<string>>): seq<string>
    decreases |chunks|
  {
    if chunks == [] then [] else chunks[0] + Flatten(chunks[1..])
  }

  /** Positional binding: the parameters cut into one run per group, in
      order. Each group gets as many as it has placeholders, and the runs
      put back together are the parameters. */
  function Bind(gs: seq<Group>, ps: seq<string>): (chunks: seq<seq<string>>)
    requires |ps| == TotalArity(gs)
    ensures |chunks| == |gs|
    ensures forall i :: 0 <= i < |gs| ==> |chunks[i]| == Arity(gs[i])
    ensures Flatten(chunks) == ps
    decreases |gs|
  {
    if gs == [] then []
    else
      var a := Arity(gs[0]);
      var rest := Bind(gs[1..], ps[a..]);
      assert ps == ps[..a] + ps[a..];
      [ps[..a]] + rest
  }

  predicate ArgsFit(gs: seq<Group>, chunks: seq<seq<string>>) {
    |chunks| == |gs| && forall i :: 0 <= i < |gs| ==> |chunks[i]| == Arity(gs[i])
  }

  /** The groups joined by AND. An empty clause is true of every row. */
  function EvalWhere(gs: seq<Group>, chunks: seq<seq<string>>, r: Record): Truth
    requires ArgsFit(gs, chunks)
    decreases |gs|
  {
    if gs == [] then True
    else And(EvalGroup(gs[0], chunks[0], r), EvalWhere(gs[1..], chunks[1..], r))
  }

  /** `a` is `b` with some elements left out: what remains keeps its order
      and its repeats. */
  predicate Subsequence<T(==)>(a: seq<T>, b: seq<T>)
    decreases |b|
  {
    if a == [] then true
    else if b == [] then false
    else (a[0] == b[0] && Subsequence(a[1..], b[1..])) || Subsequence(a, b[1..])
  }

  /** The rows of the scan for which the condition is true, in scan order. */
  function Where(rows: seq<Record>, gs: seq<Group>, chunks: seq<seq<string>>): (kept: seq<Record>)
    requires ArgsFit(gs, chunks)
    ensures forall x :: x in kept <==> x in rows && EvalWhere(gs, chunks, x) == True
    ensures Subsequence(kept, rows)
    ensures IdsAscending(rows) ==> IdsAscending(kept)
    decreases |rows|
  {
    if rows == [] then []
    else
      var rest := Where(rows[1..], gs, chunks);
      assert forall x :: x in rows <==> x == rows[0] || x in rows[1..];
      if EvalWhere(gs, chunks, rows[0]) == True then
        assert IdsAscending(rows) ==> IdsAscending([rows[0]] + rest) by {
          if IdsAscending(rows) { AscendingCons(rows, rest); }
        }
        assert ([rows[0]] + rest)[1..] == rest;
        [rows[0]] + rest
      else rest
  }

  /** The head of an ascending scan may go in front of any ascending
      selection from its tail. */
  lemma AscendingCons(rows: seq<Record>, rest: seq<Record>)
    requires rows != [] && IdsAscending(rows) && IdsAscending(rest)
    requires forall x :: x in rest ==> x in rows[1..]
    ensures IdsAscending([rows[0]] + rest)
  {
    forall x | x in rest ensures rows[0].id < x.id {
      var k :| 0 <= k < |rows[1..]| && rows[1..][k] == x;
      assert rows[k + 1] == x;
    }
    var s := [rows[0]] + rest;
    forall i, j | 0 <= i < j < |s| ensures s[i].id < s[j].id {
      assert s[j] == rest[j - 1];
      if i > 0 { assert s[i] == rest[i - 1]; }
      else { assert rest[j - 1] in rest; }
    }
  }

  function Reverse(s: seq<Record>): (r: seq<Record>)
    ensures |r| == |s| && forall i :: 0 <= i < |s| ==> r[i] == s[|s| - 1 - i]
    ensures forall x :: x in r <==> x in s
    decreases |s|
  {
    if s == [] then []
    else
      var r := Reverse(s[1..]) + [s[0]];
      assert forall x :: x in s <==> x == s[0] || x in s[1..];
      r
  }

  /** Reading an ascending scan backwards is `ORDER BY id DESC`. */
  lemma ReverseDescends(s: seq<Record>)
    ensures IdsAscending(s) ==> IdsDescending(Reverse(s))
  {
    var r := Reverse(s);
    if IdsAscending(s) {
      forall i, j | 0 <= i < j < |r| ensures r[i].id > r[j].id {
        assert r[i] == s[|s| - 1 - i] && r[j] == s[|s| - 1 - j];
      }
    }
  }

  /** With no groups every row is kept. */
  lemma {:induction false} WhereAll(rows: seq<Record>)
    ensures Where(rows, [], []) == rows
    decreases |rows|
  {
    if rows != [] {
      WhereAll(rows[1..]);
    }
  }

  /** How the statement can fail before any row is read. `Unsupported`:
      the clause text is not in the language the page's builder emits (the
      model reads no other SQL, valid or not). `BindingCount`: the number of
      parameters differs from the number of placeholders (sqlite3's
      "Incorrect number of bindings"). */
  datatype SqlError = Unsupported | BindingCount

  /** `fetch_df`: run `SELECT * FROM questions <clause> ORDER BY id DESC`
      over the rows of a rowid scan. */
  function Fetch(rows: seq<Record>, q: Query): (res: Result<seq<Record>, SqlError>)
    ensures ParseClause(q.clause).None? ==> res == Failure(Unsupported)
    ensures ParseClause(q.clause).Some? && TotalArity(ParseClause(q.clause).value) == |q.params| ==>
      res.Success?
    ensures ParseClause(q.clause).Some? ==>
      var gs := ParseClause(q.clause).value;
      && (TotalArity(gs) != |q.params| <==> res == Failure(BindingCount))
      && (res.Success? ==>
            && (forall x :: x in res.value <==> x in rows && EvalWhere(gs, Bind(gs, q.params), x) == True)
            && (IdsAscending(rows) ==> IdsDescending(res.value)))
  {
    match ParseClause(q.clause)
    case None => Failure(Unsupported)
    case Some(gs) =>
      if TotalArity(gs) != |q.params| then Failure(BindingCount)
      else
        var kept := Where(rows, gs, Bind(gs, q.params));
        ReverseDescends(kept);
        Success(Reverse(kept))
  }

  // ---------------------------------------------------------------------
  // The built clause means the filter

  lemma {:induction false} BindAppend(a: seq<Group>, pa: seq<string>, b: seq<Group>, pb: seq<string>)
    requires |pa| == TotalArity(a) && |pb| == TotalArity(b)
    ensures |pa + pb| == TotalArity(a + b)
    ensures Bind(a + b, pa + pb) == Bind(a, pa) + Bind(b, pb)
    decreases |a|
  {
    TotalArityAppend(a, b);
    if a == [] {
      assert a + b == b && pa + pb == pb;
    } else {
      var k := Arity(a[0]);
      assert (a + b)[0] == a[0];
      assert (a + b)[1..] == a[1..] + b;
      assert (pa + pb)[..k] == pa[..k];
      assert (pa + pb)[k..] == pa[k..] + pb;
      BindAppend(a[1..], pa[k..], b, pb);
    }
  }

  lemma {:induction false} EvalAppend(a: seq<Group>, ca: seq<seq<string>>,
                                      b: seq<Group>, cb: seq<seq<string>>, r: Record)
    requires ArgsFit(a, ca) && ArgsFit(b, cb)
    ensures ArgsFit(a + b, ca + cb)
    ensures EvalWhere(a + b, ca + cb, r) == True
            <==> EvalWhere(a, ca, r) == True && EvalWhere(b, cb, r) == True
    decreases |a|
  {
    assert ArgsFit(a + b, ca + cb) by {
      forall i | 0 <= i < |a + b| ensures |(ca + cb)[i]| == Arity((a + b)[i]) {
        if i < |a| { } else { assert (a + b)[i] == b[i - |a|]; }
      }
    }
    if a == [] {
      assert a + b == b && ca + cb == cb;
    } else {
      assert (a + b)[1..] == a[1..] + b;
      assert (ca + cb)[1..] == ca[1..] + cb;
      EvalAppend(a[1..], ca[1..], b, cb, r);
    }
  }

  /** A single group takes all the parameters. */
  lemma BindOne(g: Group, ps: seq<string>)
    requires |ps| == Arity(g)
    ensures |ps| == TotalArity([g])
    ensures Bind([g], ps) == [ps]
  {
    assert [g][1..] == [];
    assert ps[|ps|..] == [] && ps[..|ps|] == ps;
  }

  lemma ColumnPiece(c: Column, chosen: seq<string>, r: Record)
    ensures |chosen| == TotalArity(ColumnGroups(c, chosen))
    ensures EvalWhere(ColumnGroups(c, chosen), Bind(ColumnGroups(c, chosen), chosen), r) == True
            <==> InChosen(chosen, Field(r, c))
  {
    if chosen != [] {
      BindOne(InList(c, |chosen|), chosen);
    }
  }

  /** The search pattern is `%text%` around exactly the typed text. */
  lemma PatternInfix(v: string, search: string)
    ensures LikeInfix(v, Pattern(search)) <==> Contains(v, search)
  {
    var p := Pattern(search);
    assert p[1..|p| - 1] == search;
  }

  lemma SearchPiece(search: string, r: Record)
    ensures |SearchParams(search)| == TotalArity(SearchGroups(search))
    ensures EvalWhere(SearchGroups(search), Bind(SearchGroups(search), SearchParams(search)), r) == True
            <==> SearchHit(search, r)
  {
    if search != "" {
      BindOne(TextSearch, SearchParams(search));
      PatternInfix(r.question, search);
      if r.answer.Some? { PatternInfix(r.answer.value, search); }
      if r.notes.Some? { PatternInfix(r.notes.value, search); }
    }
  }

  /** Four groups of groups, each bound to its own run of parameters, are
      true together exactly when each of them is. */
  lemma Combine4(g1: seq<Group>, p1: seq<string>, g2: seq<Group>, p2: seq<string>,
                 g3: seq<Group>, p3: seq<string>, g4: seq<Group>, p4: seq<string>, r: Record)
    requires |p1| == TotalArity(g1) && |p2| == TotalArity(g2)
    requires |p3| == TotalArity(g3) && |p4| == TotalArity(g4)
    ensures |p1 + p2 + p3 + p4| == TotalArity(g1 + g2 + g3 + g4)
    ensures EvalWhere(g1 + g2 + g3 + g4, Bind(g1 + g2 + g3 + g4, p1 + p2 + p3 + p4), r) == True
            <==> && EvalWhere(g1, Bind(g1, p1), r) == True
                 && EvalWhere(g2, Bind(g2, p2), r) == True
                 && EvalWhere(g3, Bind(g3, p3), r) == True
                 && EvalWhere(g4, Bind(g4, p4), r) == True
  {
    BindAppend(g1, p1, g2, p2);
    BindAppend(g1 + g2, p1 + p2, g3, p3);
    BindAppend(g1 + g2 + g3, p1 + p2 + p3, g4, p4);
    var b1, b2, b3, b4 := Bind(g1, p1), Bind(g2, p2), Bind(g3, p3), Bind(g4, p4);
    EvalAppend(g1, b1, g2, b2, r);
    EvalAppend(g1 + g2, b1 + b2, g3, b3, r);
    EvalAppend(g1 + g2 + g3, b1 + b2 + b3, g4, b4, r);
  }

  /** The clause and parameters built for `f` select exactly the rows that
      `Matches(f, _)` describes: AND across the groups, OR inside an IN
      list, NULL never matching, and substring search over question,
      answer and notes. */
  lemma WhereAgrees(f: Filter, r: Record)
    ensures |BuildParams(f)| == TotalArity(ActiveGroups(f))
    ensures EvalWhere(ActiveGroups(f), Bind(ActiveGroups(f), BuildParams(f)), r) == True
            <==> Matches(f, r)
  {
    ColumnPiece(Topic, f.topics, r);
    ColumnPiece(Role, f.roles, r);
    ColumnPiece(Company, f.companies, r);
    SearchPiece(f.search, r);
    Combine4(ColumnGroups(Topic, f.topics), f.topics, ColumnGroups(Role, f.roles), f.roles,
             ColumnGroups(Company, f.companies), f.companies,
             SearchGroups(f.search), SearchParams(f.search), r);
  }

  /** Over any scan, the built statement keeps exactly the rows that
      match the filter. */
  lemma WhereMatches(rows: seq<Record>, f: Filter)
    ensures |BuildParams(f)| == TotalArity(ActiveGroups(f))
    ensures forall x :: x in Where(rows, ActiveGroups(f), Bind(ActiveGroups(f), BuildParams(f)))
                        <==> x in rows && Matches(f, x)
  {
    ParamsMatchArity(f);
    forall x
      ensures EvalWhere(ActiveGroups(f), Bind(ActiveGroups(f), BuildParams(f)), x) == True <==> Matches(f, x)
    {
      WhereAgrees(f, x);
    }
  }

  // ---------------------------------------------------------------------
  // Which parameters each group receives

  /** The parameters lines 79, 82, 85 and 88 add for group `g`: the chosen
      values of its column, or the search pattern three times. */
  function ChunkFor(f: Filter, g: Group): seq<string> {
    match g
    case InList(c, _) => Chosen(f, c)
    case TextSearch => [Pattern(f.search), Pattern(f.search), Pattern(f.search)]
  }

  predicate ChunksFor(f: Filter, gs: seq<Group>, chunks: seq<seq<string>>) {
    |chunks| == |gs| && forall i :: 0 <= i < |gs| ==> chunks[i] == ChunkFor(f, gs[i])
  }

  lemma ChunksForAppend(f: Filter, a: seq<Group>, ca: seq<seq<string>>, b: seq<Group>, cb: seq<seq<string>>)
    requires ChunksFor(f, a, ca) && ChunksFor(f, b, cb)
    ensures ChunksFor(f, a + b, ca + cb)
  {
    forall i | 0 <= i < |a + b| ensures (ca + cb)[i] == ChunkFor(f, (a + b)[i]) {
      if i >= |a| { assert (a + b)[i] == b[i - |a|]; }
    }
  }

  lemma ColumnChunks(f: Filter, c: Column)
    ensures |Chosen(f, c)| == TotalArity(ColumnGroups(c, Chosen(f, c)))
    ensures ChunksFor(f, ColumnGroups(c, Chosen(f, c)), Bind(ColumnGroups(c, Chosen(f, c)), Chosen(f, c)))
  {
    var chosen := Chosen(f, c);
    if chosen != [] {
      BindOne(InList(c, |chosen|), chosen);
    }
  }

  lemma SearchChunks(f: Filter)
    ensures |SearchParams(f.search)| == TotalArity(SearchGroups(f.search))
    ensures ChunksFor(f, SearchGroups(f.search), Bind(SearchGroups(f.search), SearchParams(f.search)))
  {
    if f.search != "" {
      BindOne(TextSearch, SearchParams(f.search));
    }
  }

  /** Binding the built parameters to the built clause hands every IN
      group exactly the values chosen for its column, and the search group
      the pattern `%text%` for each of its three placeholders. */
  lemma BindLayout(f: Filter)
    ensures |BuildParams(f)| == TotalArity(ActiveGroups(f))
    ensures ChunksFor(f, ActiveGroups(f), Bind(ActiveGroups(f), BuildParams(f)))
  {
    var g1, g2, g3, g4 := ColumnGroups(Topic, f.topics), ColumnGroups(Role, f.roles),
                          ColumnGroups(Company, f.companies), SearchGroups(f.search);
    var p1, p2, p3, p4 := f.topics, f.roles, f.companies, SearchParams(f.search);
    ColumnChunks(f, Topic);
    ColumnChunks(f, Role);
    ColumnChunks(f, Company);
    SearchChunks(f);
    BindAppend(g1, p1, g2, p2);
    BindAppend(g1 + g2, p1 + p2, g3, p3);
    BindAppend(g1 + g2 + g3, p1 + p2 + p3, g4, p4);
    var b1, b2, b3, b4 := Bind(g1, p1), Bind(g2, p2), Bind(g3, p3), Bind(g4, p4);
    ChunksForAppend(f, g1, b1, g2, b2);
    ChunksForAppend(f, g1 + g2, b1 + b2, g3, b3);
    ChunksForAppend(f, g1 + g2 + g3, b1 + b2 + b3, g4, b4);
  }
}

=== FILE: store_properties.dfy ===
/** Properties that relate several of the table's operations: what the
    listing shows, what a lookup finds after each write, and which
    invariants the writes keep. */
module StoreProperties {
  import opened Wrappers
  import opened Text
  import opened Records
  import opened Filters
  import opened WhereClause
  import opened SqlEval
  import opened QuestionStore

  /** With nothing chosen and nothing typed there is no clause and no
      parameter, and the listing is the whole table, newest first. */
  lemma NoFilterListsAll(t: Table)
    ensures BuildWhere(NoFilter) == Query("", [])
    ensures Listing(t, NoFilter) == Success(Reverse(t.rows))
  {
    assert ActiveGroups(NoFilter) == [];
    WhereAll(t.rows);
  }

  lemma ReverseSnoc(s: seq<Record>, x: Record)
    ensures Reverse(s + [x]) == [x] + Reverse(s)
  {
    var a, b := Reverse(s + [x]), [x] + Reverse(s);
    forall i | 0 <= i < |a| ensures a[i] == b[i] {
      if i > 0 { assert (s + [x])[|s| - i] == s[|s| - 1 - (i - 1)]; }
    }
  }

  /** After a successful insert the unfiltered listing is the new row
      followed by the previous listing. */
  lemma InsertThenList(t: Table, d: Draft)
    requires Insert(t, d).Success?
    ensures Listing(Insert(t, d).value, NoFilter)
            == Success([Inserted(Insert(t, d).value.lastId, d)] + Reverse(t.rows))
  {
    var t' := Insert(t, d).value;
    assert t'.rows == t.rows + [Inserted(t'.lastId, d)];
    NoFilterListsAll(t');
    ReverseSnoc(t.rows, Inserted(t'.lastId, d));
  }

  /** The inserted row is found under its new id. */
  lemma InsertThenLookup(t: Table, d: Draft)
    requires Insert(t, d).Success?
    ensures Lookup(Insert(t, d).value, Insert(t, d).value.lastId)
            == Some(Inserted(Insert(t, d).value.lastId, d))
  {
    var t' := Insert(t, d).value;
    var r := Lookup(t', t'.lastId);
    var k :| 0 <= k < |t'.rows| && t'.rows[k] == r.value;
  }

  /** A rejected insert leaves nothing changed: there is no table to
      return, and the caller keeps the old one. */
  lemma BlankQuestionRejected(t: Table, d: Draft)
    requires AllSpace(d.question)
    ensures Insert(t, d) == Failure(QuestionRequired)
  {
  }

  /** After an update of a present id, that id holds exactly the edited
      row: none of its previous values survive. */
  lemma UpdateThenLookup(t: Table, id: nat, d: Draft)
    requires Lookup(t, id).Some?
    ensures Lookup(Update(t, id, d), id) == Some(Edited(id, d))
  {
    var t' := Update(t, id, d);
    var r := Lookup(t', id);
    var k :| 0 <= k < |t'.rows| && t'.rows[k] == r.value;
  }

  /** After a delete the id is not found any more. */
  lemma DeleteThenLookup(t: Table, id: nat)
    ensures Lookup(Delete(t, id), id) == None
  {
    var t' := Delete(t, id);
    forall i | 0 <= i < |t'.rows| ensures t'.rows[i].id != id {
      assert t'.rows[i] in t'.rows;
    }
  }

  /** A deleted id is never handed out again: the next insert uses a
      larger one. */
  lemma DeletedIdNotReused(t: Table, id: nat, d: Draft)
    requires Valid(t) && Lookup(t, id).Some?
    requires Insert(Delete(t, id), d).Success?
    ensures Insert(Delete(t, id), d).value.lastId > id
  {
    var r := Lookup(t, id).value;
    var k :| 0 <= k < |t.rows| && t.rows[k] == r;
  }

  // ---------------------------------------------------------------------
  // Invariants of the writes

  predicate AllNormalised(t: Table) {
    forall i :: 0 <= i < |t.rows| ==> Normalised(t.rows[i])
  }

  lemma InsertKeepsNormalised(t: Table, d: Draft)
    requires AllNormalised(t) && d.date != ""
    ensures Insert(t, d).Success? ==> AllNormalised(Insert(t, d).value)
  {
    if Insert(t, d).Failure? { return; }
    var t' := Insert(t, d).value;
    var x := Inserted(t'.lastId, d);
    InsertedIsNormalised(t'.lastId, d);
    assert t'.rows == t.rows + [x];
    AppendKeeps(t.rows, x, t'.rows);
  }

  lemma AppendKeeps(rows: seq<Record>, x: Record, rows': seq<Record>)
    requires rows' == rows + [x] && Normalised(x)
    requires forall i :: 0 <= i < |rows| ==> Normalised(rows[i])
    ensures forall i :: 0 <= i < |rows'| ==> Normalised(rows'[i])
  {
    forall i | 0 <= i < |rows'| ensures Normalised(rows'[i]) {
      if i < |rows| { assert rows'[i] == rows[i]; }
    }
  }

  lemma UpdateKeepsNormalised(t: Table, id: nat, d: Draft)
    requires AllNormalised(t)
    ensures AllNormalised(Update(t, id, d))
  {
    EditedIsNormalised(id, d);
  }

  lemma DeleteKeepsNormalised(t: Table, id: nat)
    requires AllNormalised(t)
    ensures AllNormalised(Delete(t, id))
  {
    var t' := Delete(t, id);
    forall i | 0 <= i < |t'.rows| ensures Normalised(t'.rows[i]) {
      assert t'.rows[i] in t.rows;
    }
  }

  /** Opening the edit form on a row of a normalised table and pressing
      Update without changing anything leaves the table as it was. */
  lemma UnchangedEditIsNoOp(t: Table, k: nat)
    requires Valid(t) && AllNormalised(t) && k < |t.rows|
    ensures Update(t, t.rows[k].id, EditDraft(t.rows[k])) == t
  {
    var r := t.rows[k];
    EditRoundTrip(r);
    var t' := Update(t, r.id, EditDraft(r));
    forall i | 0 <= i < |t.rows| ensures t'.rows[i] == t.rows[i] {
      if t.rows[i].id == r.id {
        assert i == k;
      }
    }
    assert t'.rows == t.rows;
  }

  /** Every question in the table is non-empty. */
  predicate QuestionsPresent(t: Table) {
    forall i :: 0 <= i < |t.rows| ==> t.rows[i].question != ""
  }

  lemma InsertKeepsQuestions(t: Table, d: Draft)
    requires QuestionsPresent(t) && Insert(t, d).Success?
    ensures QuestionsPresent(Insert(t, d).value)
  {
    var t' := Insert(t, d).value;
    forall i | 0 <= i < |t'.rows| ensures t'.rows[i].question != "" {
      if i < |t.rows| { assert t'.rows[i] == t.rows[i]; }
    }
  }

  lemma DeleteKeepsQuestions(t: Table, id: nat)
    requires QuestionsPresent(t)
    ensures QuestionsPresent(Delete(t, id))
  {
    var t' := Delete(t, id);
    forall i | 0 <= i < |t'.rows| ensures t'.rows[i].question != "" {
      assert t'.rows[i] in t.rows;
    }
  }

  /** Unlike an insert, an update does not check the question: editing a
      row's question down to whitespace stores an empty question. */
  lemma UpdateMayClearQuestion(t: Table, k: nat, d: Draft)
    requires k < |t.rows| && AllSpace(d.question)
    ensures Update(t, t.rows[k].id, d).rows[k].question == ""
  {
  }

  // ---------------------------------------------------------------------
  // A worked scenario

  /** The first question added to a new database gets id 1. */
  lemma FirstInsert(d: Draft)
    requires !AllSpace(d.question)
    ensures Insert(Empty, d) == Success(Table([Inserted(1, d)], 1))
  {
    var t := Insert(Empty, d).value;
    assert t.rows == t.rows[..0] + [t.rows[0]];
  }

  /** The second question gets id 2 and goes after the first. */
  lemma SecondInsert(r: Record, d: Draft)
    requires r.id == 1 && !AllSpace(d.question)
    ensures Insert(Table([r], 1), d) == Success(Table([r, Inserted(2, d)], 2))
  {
    var t := Table([r], 1);
    assert Valid(t);
    var t' := Insert(t, d).value;
    assert t'.lastId == 2 && t'.rows[..1] == [r];
    assert t'.rows == t'.rows[..1] + [t'.rows[1]];
    assert t'.rows == [r, Inserted(2, d)];
  }

  /** The listing is the filtered scan read backwards. */
  lemma ListingIsScan(t: Table, f: Filter)
    ensures |BuildParams(f)| == TotalArity(ActiveGroups(f))
    ensures Listing(t, f)
            == Success(Reverse(Where(t.rows, ActiveGroups(f), Bind(ActiveGroups(f), BuildParams(f)))))
  {
    BuildWhereParses(f);
    ParamsMatchArity(f);
  }

  /** Of two rows, a condition true of the first only keeps the first. */
  lemma WhereFirstOfTwo(r1: Record, r2: Record, gs: seq<Group>, cs: seq<seq<string>>)
    requires ArgsFit(gs, cs)
    requires EvalWhere(gs, cs, r1) == True && EvalWhere(gs, cs, r2) != True
    ensures Where([r1, r2], gs, cs) == [r1]
  {
    assert [r1, r2][1..] == [r2] && [r2][1..] == [];
    assert Where([r2], gs, cs) == Where([], gs, cs) == [];
  }

  /** With a row tagged "OS" under id 1 and one tagged "DBMS" under id 2,
      choosing topic "OS" lists the first row alone. */
  lemma FilterByTopic(r1: Record, r2: Record, f: Filter)
    requires r1.topic == Some("OS") && r2.topic == Some("DBMS")
    requires f == Filter(["OS"], [], [], "")
    ensures Listing(Table([r1, r2], 2), f) == Success([r1])
  {
    ParamsMatchArity(f);
    var gs := ActiveGroups(f);
    var cs := Bind(gs, BuildParams(f));
    assert Matches(f, r1) && !Matches(f, r2);
    WhereAgrees(f, r1);
    WhereAgrees(f, r2);
    WhereFirstOfTwo(r1, r2, gs, cs);
    assert Reverse([r1]) == [r1];
    ListingIsScan(Table([r1, r2], 2), f);
  }

  /** Two questions are added to a new database, one tagged "OS" and one
      tagged "DBMS"; choosing topic "OS" in the sidebar lists exactly the
      first one, stored under id 1. */
  lemma TwoInsertsThenFilter(d1: Draft, d2: Draft)
    requires d1 == Draft("", "", "OS", Easy, "What is a process?", "", d1.date, "")
    requires d2 == Draft("", "", "DBMS", Medium, "Explain normalization", "", d2.date, "")
    ensures Insert(Empty, d1).Success? && Insert(Insert(Empty, d1).value, d2).Success?
    ensures Listing(Insert(Insert(Empty, d1).value, d2).value, Filter(["OS"], [], [], ""))
            == Success([Inserted(1, d1)])
  {
    assert !IsSpace(d1.question[0]) && !IsSpace(d2.question[0]);
    FirstInsert(d1);
    SecondInsert(Inserted(1, d1), d2);
    FilterByTopic(Inserted(1, d1), Inserted(2, d2), Filter(["OS"], [], [], ""));
  }
}

=== FILE: text.dfy ===
/** The string helpers the application relies on: Python's `str.strip()`,
    `str.join`, list repetition and substring containment. */
module Text {

  /** Python's `str.isspace()` for one character: the ASCII controls
      TAB..CR and FS..US, SPACE, NEL, NO-BREAK SPACE and the Unicode
      space separators. */
  predicate IsSpace(c: char) {
    || ('\t' <= c <= '\r')
    || ('\U{1C}' <= c <= ' ')
    || c == '\U{85}' || c == '\U{A0}' || c == '\U{1680}'
    || ('\U{2000}' <= c <= '\U{200A}')
    || c == '\U{2028}' || c == '\U{2029}' || c == '\U{202F}'
    || c == '\U{205F}' || c == '\U{3000}'
  }

  predicate AllSpace(s: string) {
    forall k :: 0 <= k < |s| ==> IsSpace(s[k])
  }

  /** The number of leading whitespace characters of `s`: all of them are
      whitespace, and the one after them (if any) is not. */
  function Indent(s: string): (n: nat)
    ensures n <= |s|
    ensures forall k :: 0 <= k < n ==> IsSpace(s[k])
    ensures n == |s| || !IsSpace(s[n])
    decreases |s|
  {
    if |s| > 0 && IsSpace(s[0]) then
      var n := Indent(s[1..]);
      assert forall k :: 0 < k <= n ==> s[k] == s[1..][k - 1];
      n + 1
    else 0
  }

  /** The length of `s` without its trailing whitespace: everything from
      there on is whitespace, and the character before (if any) is not. */
  function TextEnd(s: string): (n: nat)
    ensures n <= |s|
    ensures forall k :: n <= k < |s| ==> IsSpace(s[k])
    ensures n == 0 || !IsSpace(s[n - 1])
    decreases |s|
  {
    if |s| > 0 && IsSpace(s[|s| - 1]) then
      var n := TextEnd(s[..|s| - 1]);
      assert forall k :: 0 <= k < |s| - 1 ==> s[k] == s[..|s| - 1][k];
      n
    else |s|
  }

  /** `s.strip()`: `s` with leading and trailing whitespace removed. The
      result is the slice of `s` that starts after its indentation and is
      followed only by whitespace, and it neither starts nor ends with
      whitespace; it is empty exactly when `s` is all whitespace (which is
      what `not s.strip()` tests). */
  function Strip(s: string): (r: string)
    ensures |r| <= |s| - Indent(s) && r == s[Indent(s)..Indent(s) + |r|]
    ensures forall k :: Indent(s) + |r| <= k < |s| ==> IsSpace(s[k])
    ensures r == [] || (!IsSpace(r[0]) && !IsSpace(r[|r| - 1]))
    ensures r == [] <==> AllSpace(s)
  {
    var i := Indent(s);
    if i == |s| then "" else s[i..TextEnd(s)]
  }

  /** Stripping twice is stripping once. */
  lemma StripIdempotent(s: string)
    ensures Strip(Strip(s)) == Strip(s)
  {
    var r := Strip(s);
    assert Indent(r) == 0;
    assert r == [] || TextEnd(r) == |r|;
  }

  /** `sub` occurs somewhere in `s` as a contiguous substring. */
  predicate Contains(s: string, sub: string) {
    exists i :: 0 <= i <= |s| && sub <= s[i..]
  }

  /** Python's `sep.join(xs)`. */
  function Join(sep: string, xs: seq<string>): string
    decreases |xs|
  {
    if |xs| == 0 then ""
    else if |xs| == 1 then xs[0]
    else xs[0] + sep + Join(sep, xs[1..])
  }

  /** Python's `[x] * n`. */
  function Repeat<T>(x: T, n: nat): (r: seq<T>)
    ensures |r| == n && forall k :: 0 <= k < n ==> r[k] == x
  {
    seq(n, _ => x)
  }

  /** The number of occurrences of `c` in `s`. */
  function Count(c: char, s: string): nat
    decreases |s|
  {
    if s == [] then 0 else Count(c, s[..|s| - 1]) + (if s[|s| - 1] == c then 1 else 0)
  }

  /** Counts add up over a concatenation. The whole is passed as `s` so
      that callers need not spell out how it was built. */
  lemma {:induction false} CountConcat(c: char, s: string, a: string, b: string)
    requires s == a + b
    ensures Count(c, s) == Count(c, a) + Count(c, b)
    decreases |b|
  {
    if b == [] {
      assert s == a;
    } else {
      var s' := s[..|s| - 1];
      var b' := b[..|b| - 1];
      assert s' == a + b';
      CountConcat(c, s', a, b');
    }
  }

  lemma CountOne(c: char)
    ensures Count(c, [c]) == 1
  {
    assert [c][..0] == [];
  }

  lemma {:induction false} CountAbsent(c: char, s: string)
    requires c !in s
    ensures Count(c, s) == 0
    decreases |s|
  {
    if s != [] {
      assert s[|s| - 1] in s;
      var s' := s[..|s| - 1];
      assert forall x :: x in s' ==> x in s;
      CountAbsent(c, s');
    }
  }

  /** `p` is a prefix of `s`, compared one character at a time. */
  predicate StartsWith(s: string, p: string)
    ensures StartsWith(s, p) ==> |p| <= |s|
    decreases |p|
  {
    p == [] || (|s| > 0 && s[0] == p[0] && StartsWith(s[1..], p[1..]))
  }

  lemma {:induction false} StartsWithConcat(s: string, p: string, rest: string)
    requires s == p + rest
    ensures StartsWith(s, p) && s[|p|..] == rest
    decreases |p|
  {
    if p != [] {
      assert s[1..] == p[1..] + rest;
      StartsWithConcat(s[1..], p[1..], rest);
    }
  }

  lemma {:induction false} StartsWithSplit(s: string, p: string)
    requires StartsWith(s, p)
    ensures |p| <= |s| && s == p + s[|p|..]
    decreases |p|
  {
    if p != [] {
      StartsWithSplit(s[1..], p[1..]);
      assert s == [s[0]] + s[1..];
    }
  }

  /** `s` is `a` followed by `t`, and `t` is `b` followed by `rest`: so `s`
      is `a + b` followed by `rest`. */
  lemma ConcatNested(s: string, a: string, t: string, b: string, rest: string)
    requires s == a + t && t == b + rest
    ensures s == (a + b) + rest
  {
  }

  /** A three-part string read as its first part and the other two. */
  lemma ConcatRight(s: string, a: string, b: string, c: string)
    requires s == a + b + c
    ensures s == a + (b + c)
  {
  }

  /** A first part and two more read as a three-part string. */
  lemma ConcatLeft(s: string, a: string, b: string, c: string)
    requires s == a + (b + c)
    ensures s == a + b + c
  {
  }
}

=== FILE: where_clause.dfy ===
/** The WHERE clause the page assembles from the sidebar (lines 75-90 of
    the script): its abstract syntax, its text, the parameters bound to its
    `?` placeholders, and a parser for exactly the clauses it can emit. */
module WhereClause {
  import opened Wrappers
  import opened Text
  import opened Records
  import opened Filters

  /** One conjunct of the clause: `col IN (?,...,?)` with `size`
      placeholders, or the three-way LIKE search. */
  datatype Group = InList(col: Column, size: nat) | TextSearch

  predicate WellFormed(g: Group) {
    g.TextSearch? || g.size >= 1
  }

  predicate AllWellFormed(gs: seq<Group>) {
    forall i :: 0 <= i < |gs| ==> WellFormed(gs[i])
  }

  /** The number of parameters a group binds. */
  function Arity(g: Group): nat {
    match g
    case InList(_, n) => n
    case TextSearch => 3
  }

  function TotalArity(gs: seq<Group>): nat
    decreases |gs|
  {
    if gs == [] then 0 else Arity(gs[0]) + TotalArity(gs[1..])
  }

  /** The position of a group in the fixed order topic, role, company,
      search. */
  function Rank(g: Group): nat {
    match g
    case InList(Topic, _) => 0
    case InList(Role, _) => 1
    case InList(Company, _) => 2
    case TextSearch => 3
  }

  /** Line 87's group, `(question LIKE ? OR answer LIKE ? OR notes LIKE ?)`,
      written around its three placeholders. */
  const SearchSql: string :=
    "(question LIKE " + "?" + " OR answer LIKE " + "?" + " OR notes LIKE " + "?" + ")"

  /** `','.join(['?'] * n)`. */
  function Placeholders(n: nat): string {
    Join(",", Repeat("?", n))
  }

  function Opening(c: Column): string {
    ColumnName(c) + " IN ("
  }

  function Render(g: Group): string {
    match g
    case InList(c, n) => Opening(c) + (Placeholders(n) + ")")
    case TextSearch => SearchSql
  }

  function Renders(gs: seq<Group>): (ts: seq<string>)
    ensures |ts| == |gs|
    decreases |gs|
  {
    if gs == [] then [] else [Render(gs[0])] + Renders(gs[1..])
  }

  /** Line 90: `"WHERE " + " AND ".join(where) if where else ""`. */
  function RenderClause(gs: seq<Group>): string {
    if gs == [] then "" else "WHERE " + Join(" AND ", Renders(gs))
  }

  /** The clause text together with the values for its placeholders. */
  datatype Query = Query(clause: string, params: seq<string>)

  /** The group a multi-select contributes: none when nothing is chosen. */
  function ColumnGroups(c: Column, chosen: seq<string>): seq<Group> {
    if chosen != [] then [InList(c, |chosen|)] else []
  }

  /** The LIKE pattern `f"%{search}%"`. */
  function Pattern(search: string): string {
    "%" + search + "%"
  }

  function SearchGroups(search: string): seq<Group> {
    if search != "" then [TextSearch] else []
  }

  function SearchParams(search: string): seq<string> {
    if search != "" then [Pattern(search), Pattern(search), Pattern(search)] else []
  }

  /** Whether group `g` belongs in the clause for filter `f`. */
  predicate Active(f: Filter, g: Group) {
    match g
    case InList(c, n) => n == |Chosen(f, c)| && n > 0
    case TextSearch => f.search != ""
  }

  /** The groups of lines 77-88. They come in strictly increasing rank
      (topic, role, company, search, each at most once), are well formed,
      and a group is present exactly when it is active for `f`. */
  function ActiveGroups(f: Filter): (gs: seq<Group>)
    ensures AllWellFormed(gs)
    ensures forall i, j :: 0 <= i < j < |gs| ==> Rank(gs[i]) < Rank(gs[j])
    ensures forall g :: g in gs <==> Active(f, g)
  {
    ColumnGroups(Topic, f.topics) + ColumnGroups(Role, f.roles)
      + ColumnGroups(Company, f.companies) + SearchGroups(f.search)
  }

  /** The parameters of lines 79-88, in the order the groups bind them. */
  function BuildParams(f: Filter): seq<string> {
    f.topics + f.roles + f.companies + SearchParams(f.search)
  }

  /** Lines 75-90. The clause is empty exactly when no filter is active,
      and it carries one `?` per parameter. */
  function BuildWhere(f: Filter): (q: Query)
    ensures q.clause == "" <==> IsEmpty(f)
    ensures Count('?', q.clause) == |q.params|
  {
    var gs := ActiveGroups(f);
    ParamsMatchArity(f);
    ClausePlaceholders(gs);
    Query(RenderClause(gs), BuildParams(f))
  }

  // ---------------------------------------------------------------------
  // Counting placeholders

  lemma TotalArityAppend(a: seq<Group>, b: seq<Group>)
    ensures TotalArity(a + b) == TotalArity(a) + TotalArity(b)
    decreases |a|
  {
    if a == [] {
      assert a + b == b;
    } else {
      assert (a + b)[1..] == a[1..] + b;
      TotalArityAppend(a[1..], b);
    }
  }

  /** The parameter list is exactly as long as the groups' arities add up to. */
  lemma ParamsMatchArity(f: Filter)
    ensures |BuildParams(f)| == TotalArity(ActiveGroups(f))
  {
    var t := ColumnGroups(Topic, f.topics);
    var r := ColumnGroups(Role, f.roles);
    var c := ColumnGroups(Company, f.companies);
    var s := SearchGroups(f.search);
    assert s != [] ==> s[1..] == [];
    assert TotalArity(t) == |f.topics| && TotalArity(r) == |f.roles|;
    assert TotalArity(c) == |f.companies| && TotalArity(s) == |SearchParams(f.search)|;
    TotalArityAppend(t, r);
    TotalArityAppend(t + r, c);
    TotalArityAppend(t + r + c, s);
  }

  /** `Placeholders` unfolded by one element. */
  lemma PlaceholdersUnfold(n: nat)
    requires n >= 1
    ensures n == 1 ==> Placeholders(n) == "?"
    ensures n >= 2 ==> Placeholders(n) == "?" + "," + Placeholders(n - 1)
  {
    if n >= 2 {
      assert Repeat("?", n)[1..] == Repeat("?", n - 1);
    }
  }

  lemma {:induction false} PlaceholdersCount(n: nat)
    ensures Count('?', Placeholders(n)) == n
  {
    if n == 0 {
      assert Placeholders(n) == "";
    } else if n == 1 {
      PlaceholdersUnfold(n);
      assert Count('?', "?") == 1;
    } else {
      var p := Placeholders(n);
      var q := Placeholders(n - 1);
      PlaceholdersUnfold(n);
      PlaceholdersCount(n - 1);
      CountConcat('?', p, "?,", q);
    }
  }

  lemma SearchSqlCount()
    ensures Count('?', SearchSql) == 3
  {
    var a, b, c := "(question LIKE ", " OR answer LIKE ", " OR notes LIKE ";
    var s1 := a + "?";
    var s2 := s1 + b;
    var s3 := s2 + "?";
    var s4 := s3 + c;
    var s5 := s4 + "?";
    CountAbsent('?', a);
    CountAbsent('?', b);
    CountAbsent('?', c);
    CountAbsent('?', ")");
    CountOne('?');
    CountConcat('?', s1, a, "?");
    CountConcat('?', s2, s1, b);
    CountConcat('?', s3, s2, "?");
    CountConcat('?', s4, s3, c);
    CountConcat('?', s5, s4, "?");
    CountConcat('?', SearchSql, s5, ")");
  }

  lemma RenderCount(g: Group)
    ensures Count('?', Render(g)) == Arity(g)
  {
    var s := Render(g);
    match g
    case InList(c, n) =>
      var o := Opening(c);
      var p := Placeholders(n);
      CountAbsent('?', o);
      PlaceholdersCount(n);
      CountConcat('?', s, o + p, ")");
      CountConcat('?', o + p, o, p);
    case TextSearch =>
      SearchSqlCount();
  }

  lemma {:induction false} JoinCount(gs: seq<Group>)
    ensures Count('?', Join(" AND ", Renders(gs))) == TotalArity(gs)
    decreases |gs|
  {
    var rs := Renders(gs);
    var j := Join(" AND ", rs);
    if |gs| == 1 {
      RenderCount(gs[0]);
      assert TotalArity(gs[1..]) == 0;
    } else if |gs| >= 2 {
      assert rs[1..] == Renders(gs[1..]);
      var tail := Join(" AND ", rs[1..]);
      assert j == rs[0] + " AND " + tail;
      RenderCount(gs[0]);
      JoinCount(gs[1..]);
      CountConcat('?', j, rs[0] + " AND ", tail);
      CountConcat('?', rs[0] + " AND ", rs[0], " AND ");
      CountAbsent('?', " AND ");
    }
  }

  /** The clause text has exactly one `?` per parameter its groups bind. */
  lemma ClausePlaceholders(gs: seq<Group>)
    ensures Count('?', RenderClause(gs)) == TotalArity(gs)
  {
    if gs != [] {
      JoinCount(gs);
      CountConcat('?', RenderClause(gs), "WHERE ", Join(" AND ", Renders(gs)));
      CountAbsent('?', "WHERE ");
    }
  }

  // ---------------------------------------------------------------------
  // Reading a clause back

  /** Reads `?` (`,?`)* `)` from the front of `s`: how many placeholders
      there were, and what follows the closing parenthesis. */
  function ParsePlaceholders(s: string): (r: Option<(nat, string)>)
    ensures r.Some? ==> r.value.0 >= 1 && |r.value.1| < |s|
    decreases |s|
  {
    if |s| >= 2 && s[0] == '?' && s[1] == ')' then Some((1, s[2..]))
    else if |s| >= 2 && s[0] == '?' && s[1] == ',' then
      match ParsePlaceholders(s[2..])
      case None => None
      case Some((n, rest)) => Some((n + 1, rest))
    else None
  }

  /** Reads the placeholder list of an `IN` group on column `c`. */
  function ParseList(c: Column, s: string): (r: Option<(Group, string)>)
    ensures r.Some? ==> |r.value.1| < |s|
  {
    match ParsePlaceholders(s)
    case None => None
    case Some((n, rest)) => Some((InList(c, n), rest))
  }

  /** Reads one group from the front of `s`. */
  function ParseGroup(s: string): (r: Option<(Group, string)>)
    ensures r.Some? ==> |r.value.1| < |s|
  {
    if StartsWith(s, SearchSql) then Some((TextSearch, s[|SearchSql|..]))
    else if StartsWith(s, Opening(Topic)) then ParseList(Topic, s[|Opening(Topic)|..])
    else if StartsWith(s, Opening(Role)) then ParseList(Role, s[|Opening(Role)|..])
    else if StartsWith(s, Opening(Company)) then ParseList(Company, s[|Opening(Company)|..])
    else None
  }

  /** Reads groups separated by ` AND ` that make up all of `s`. */
  function ParseGroups(s: string): Option<seq<Group>>
    decreases |s|
  {
    match ParseGroup(s)
    case None => None
    case Some((g, rest)) =>
      if rest == [] then Some([g])
      else if StartsWith(rest, " AND ") then
        match ParseGroups(rest[5..])
        case None => None
        case Some(gs) => Some([g] + gs)
      else None
  }

  /** Reads a whole clause: empty, or `WHERE ` and at least one group. */
  function ParseClause(s: string): Option<seq<Group>> {
    if s == [] then Some([])
    else if StartsWith(s, "WHERE ") then ParseGroups(s[6..])
    else None
  }

  lemma {:induction false} PlaceholdersRoundTrip(n: nat, s: string, rest: string)
    requires n >= 1 && s == Placeholders(n) + ")" + rest
    ensures ParsePlaceholders(s) == Some((n, rest))
    decreases n
  {
    PlaceholdersUnfold(n);
    if n == 1 {
      assert s == "?" + ")" + rest;
      assert s[2..] == rest;
    } else {
      var s' := Placeholders(n - 1) + ")" + rest;
      assert s == "?" + "," + s';
      assert s[2..] == s';
      PlaceholdersRoundTrip(n - 1, s', rest);
    }
  }

  lemma {:induction false} PlaceholdersExact(s: string)
    requires ParsePlaceholders(s).Some?
    ensures var (n, rest) := ParsePlaceholders(s).value;
      s == Placeholders(n) + ")" + rest
    decreases |s|
  {
    var (n, rest) := ParsePlaceholders(s).value;
    PlaceholdersUnfold(n);
    if s[1] == ')' {
      assert s == "?" + ")" + s[2..];
    } else {
      var t, q, tail := s[2..], Placeholders(n - 1), ")" + rest;
      PlaceholdersExact(t);
      ConcatRight(t, q, ")", rest);
      assert s == s[..2] + t && s[..2] == "?" + ",";
      ConcatNested(s, "?" + ",", t, q, tail);
      ConcatLeft(s, Placeholders(n), ")", rest);
    }
  }

  lemma GroupRoundTrip(g: Group, s: string, rest: string)
    requires WellFormed(g) && s == Render(g) + rest
    ensures ParseGroup(s) == Some((g, rest))
  {
    match g
    case TextSearch =>
      StartsWithConcat(s, SearchSql, rest);
    case InList(c, n) =>
      var tail := Placeholders(n) + ")" + rest;
      assert s == Opening(c) + tail;
      StartsWithConcat(s, Opening(c), tail);
      PlaceholdersRoundTrip(n, tail, rest);
      assert s[0] == ColumnName(c)[0];
      assert !StartsWith(s, SearchSql) by { assert SearchSql[0] == '('; }
      match c
      case Topic =>
      case Role =>
        assert !StartsWith(s, Opening(Topic)) by { assert Opening(Topic)[0] == 't'; }
      case Company =>
        assert !StartsWith(s, Opening(Topic)) by { assert Opening(Topic)[0] == 't'; }
        assert !StartsWith(s, Opening(Role)) by { assert Opening(Role)[0] == 'r'; }
  }

  lemma GroupExact(s: string)
    requires ParseGroup(s).Some?
    ensures var (g, rest) := ParseGroup(s).value;
      WellFormed(g) && s == Render(g) + rest
  {
    var (g, rest) := ParseGroup(s).value;
    if StartsWith(s, SearchSql) {
      StartsWithSplit(s, SearchSql);
    } else {
      var o := Opening(g.col);
      StartsWithSplit(s, o);
      var tail := s[|o|..];
      PlaceholdersExact(tail);
      ConcatNested(s, o, tail, Placeholders(g.size) + ")", rest);
    }
  }

  lemma {:induction false} GroupsRoundTrip(gs: seq<Group>, s: string)
    requires |gs| > 0 && AllWellFormed(gs) && s == Join(" AND ", Renders(gs))
    ensures ParseGroups(s) == Some(gs)
    decreases |gs|
  {
    var rs := Renders(gs);
    assert rs[0] == Render(gs[0]);
    if |gs| == 1 {
      assert s == rs[0] + "";
      GroupRoundTrip(gs[0], s, "");
      GroupsLast(gs[0], s);
      assert [gs[0]] == gs;
    } else {
      assert rs[1..] == Renders(gs[1..]);
      var tail := Join(" AND ", rs[1..]);
      var rest := " AND " + tail;
      ConcatRight(s, rs[0], " AND ", tail);
      GroupRoundTrip(gs[0], s, rest);
      GroupsRoundTrip(gs[1..], tail);
      GroupsStep(gs[0], s, tail, gs[1..]);
      assert [gs[0]] + gs[1..] == gs;
    }
  }

  lemma {:induction false} GroupsExact(s: string)
    requires ParseGroups(s).Some?
    ensures var gs := ParseGroups(s).value;
      |gs| > 0 && AllWellFormed(gs) && Join(" AND ", Renders(gs)) == s
    decreases |s|
  {
    var gs := ParseGroups(s).value;
    GroupExact(s);
    var (g, rest) := ParseGroup(s).value;
    if rest != [] {
      StartsWithSplit(rest, " AND ");
      var tail := rest[5..];
      GroupsExact(tail);
      var gs' := ParseGroups(tail).value;
      assert gs == [g] + gs';
      assert gs[1..] == gs';
      assert Renders(gs)[1..] == Renders(gs');
      ConcatLeft(s, Render(g), " AND ", tail);
    }
  }

  /** A group that takes up all of `s` is a one-group list. */
  lemma GroupsLast(g: Group, s: string)
    requires ParseGroup(s) == Some((g, ""))
    ensures ParseGroups(s) == Some([g])
  {
  }

  /** A group followed by ` AND ` and a list is a longer list. */
  lemma GroupsStep(g: Group, s: string, tail: string, gs: seq<Group>)
    requires ParseGroup(s) == Some((g, " AND " + tail))
    requires ParseGroups(tail) == Some(gs)
    ensures ParseGroups(s) == Some([g] + gs)
  {
    StartsWithConcat(" AND " + tail, " AND ", tail);
  }

  /** Every clause the page can build reads back as the groups it was
      built from. */
  lemma ClauseRoundTrip(gs: seq<Group>)
    requires AllWellFormed(gs)
    ensures ParseClause(RenderClause(gs)) == Some(gs)
  {
    if gs != [] {
      var body := Join(" AND ", Renders(gs));
      StartsWithConcat(RenderClause(gs), "WHERE ", body);
      GroupsRoundTrip(gs, body);
    }
  }

  /** The reader accepts nothing but rendered clauses: whatever it reads
      renders back to the very text it read. */
  lemma ClauseExact(s: string)
    requires ParseClause(s).Some?
    ensures AllWellFormed(ParseClause(s).value)
    ensures RenderClause(ParseClause(s).value) == s
  {
    if s != [] {
      StartsWithSplit(s, "WHERE ");
      GroupsExact(s[6..]);
    }
  }

  /** The clause built for `f` reads back as its active groups. */
  lemma BuildWhereParses(f: Filter)
    ensures ParseClause(BuildWhere(f).clause) == Some(ActiveGroups(f))
  {
    ClauseRoundTrip(ActiveGroups(f));
  }
}

=== FILE: wrappers.dfy ===
/** Failure-compatible result types shared by the model. */
module Wrappers {

  /** A value that may be absent; `None` plays the part of SQL NULL. */
  datatype Option<+T> = None | Some(value: T)

  /** The outcome of an operation that can fail with an error of type `E`. */
  datatype Result<+T, +E> = Success(value: T) | Failure(error: E)
}
